=== FILE: README.md ===
# shitou screenshot triage, modelled in Dafny

shitou drives an Android phone over ADB and triages screenshots of dating
profiles. The device side reads the phone's screen size from the text that
`wm size` prints. It computes where the "next profile" button sits. It sends
shell commands and pulls screenshots into `./output/sources/<uuid>.png`. The
recognition side builds an OCR engine and a set of name patterns. A worker
loop then takes screenshot paths in the order they were sent. It extracts
each screenshot's text. A screenshot that matches no pattern is deleted. One
that matches a pattern has a fixed rectangle cropped out and stored under
`./output/cropped/`.

The project has five modules:

- `Wrappers` (wrappers.dfy) holds Rust's `Option` and `Result`, plus `Outcome`
  for a `Result<(), E>`.
- `Text` (text.dfy) models `str::split` on one character, its inverse join,
  and the `filter` that drops unwanted pieces.
- `Decimal` (decimal.dfy) models the matches of `\d+` as maximal digit runs,
  the `u16` type, `str::parse::<u16>` and decimal rendering.
- `Device` (device.dfy) models src/device.rs: `DeviceInfo::new`, the button
  offsets, and the `Device` wrapper's `init`, `connect`, `send_command` and
  `pull_image`.
- `Ocr` (ocr.dfy) models src/ocr.rs: `Ocr::new`, the crop target and
  rectangle, and the worker loop as a fold over the received paths.

Some collaborators are outside the model and are passed in as
function-valued parameters:

- the ADB transport
- the OCR engine
- regex matching
- the file system
- UUID generation

The worker's collaborators are gathered in the `Ocr.Env` record.

`send_command` decodes `writer.buffer()`, which holds only the bytes the
BufWriter has not yet passed on to the output vector. The model keeps that
behaviour in `Device.SendCommandAsWritten` and uses the intended behaviour,
decoding everything the shell wrote, in `Device.SendCommandIntended` (see
"## Findings").

The model follows the code in three places where a reader might expect otherwise:

- The crop rectangle is passed as is, with no clamping to the image.
- A failed text extraction or a failed crop panics the worker thread. It
  does not skip that screenshot.
- A failed delete makes the thread return `Err` with the error's text. It
  does not panic.

## Model

| member | source | states |
|---|---|---|
| Device.LastLineDecides | src/device.rs:122-131 | Only the last non-empty line of the output decides the size: `before + line + after` gives the size of `line`, whatever lines come before it and however many line breaks follow it |
| Device.LaterLineWins | src/device.rs:123-130 | A later line that is not blank overrides every earlier line, as when an override size follows the physical size |
| Device.TrailingNewLineIgnored | src/device.rs:123-126 | A trailing line break never changes the result |
| Device.NoSizeIffBlank | src/device.rs:123-146 | The "Unable to get the size of the device" error occurs exactly when the output consists only of line breaks, including the empty output |
| Device.SizeFromWmOutput | src/device.rs:122-143 | A last line of the shape `text W text H text`, whose first two digit runs are W and H, gives width W and height H when both are at most 65535. W and H may have leading zeros. The text between them must be non-empty and hold no digit, and any later runs are ignored |
| Device.SizeOfTwoNumbers | src/device.rs:131-143 | On one line, the first two digit runs are parsed as the width and the height, and such a line holds no line break |
| Device.NoDigitRunIsWidthError | src/device.rs:131-136 | A last line with no digit at all gives the "Unable to get the width" error |
| Device.OneDigitRunIsHeightError | src/device.rs:131-141 | A last line with exactly one digit run that fits in 16 bits gives the "Unable to get the height" error |
| Device.WidthOverflowIsWidthError | src/device.rs:133-136 | A first digit run above 65535, with or without leading zeros, gives the width error, whatever follows it |
| Device.WidthOverflowOnLine | src/device.rs:131-136 | On one line, a first digit run above 65535 gives the width error, and the line holds no line break |
| Device.FirstRunTooWide | src/device.rs:131-136 | The first `\d+` match of such a line is the oversized run, so `parse::<u16>` rejects it and the width is missing |
| Device.HeightOverflowIsHeightError | src/device.rs:133-141 | A width that fits followed by a second run above 65535, either with leading zeros or not, gives the height error |
| Device.HeightOverflowOnLine | src/device.rs:131-141 | On one line, a first run that fits and a second that does not give the height error |
| Device.LineThenBlanks | src/device.rs:123-126 | Once blank pieces are dropped, a line followed only by line breaks leaves just that line |
| Device.LinesAfterLineBreak | src/device.rs:123-126 | The non-empty lines of `b + "\n" + rest` are those of `b` followed by those of `rest` |
| Device.NoNewLineInSizeLine | src/device.rs:123-126 | A line assembled from digit runs and text without line breaks holds no line break, so it stays one line |
| Device.NextProfileButtonCoordinates | src/device.rs:27-29 | The button is 925 pixels left of the right edge and 469 pixels above the bottom edge, and it lies on the screen |
| Device.Init | src/device.rs:43-51 | Init fails exactly when the address does not parse, with that parse error. Otherwise it keeps the address and port and has no device handle yet |
| Device.Connect | src/device.rs:55-60 | Connect always succeeds and keeps the address and port. The server at the device's own address and port is asked, and whatever it found becomes the handle, including nothing |
| Device.CommandArgs | src/device.rs:74-80 | Every command sends exactly one shell argument, the string the closure returned |
| Device.BufferedWrite | src/device.rs:82-86 | One `write_all` into the BufWriter loses and reorders no byte, keeps the buffer within its 8192-byte capacity, and leaves nothing pending after a chunk of at least that size. A chunk that fits in the spare room is only appended to the buffer, and nothing is flushed |
| Device.SmallStaysPending | src/device.rs:82-86 | Output that fits in the buffer is never flushed, however it is chunked: all of it stays pending |
| Device.WriteChunks | src/device.rs:82-86 | After any sequence of writes, the vector followed by the pending bytes is exactly the concatenation of everything written |
| Device.SendCommandAsWritten | src/device.rs:66-93 | The code as written: without a handle the output is empty, and a shell error is passed on. Otherwise the output is the decoding of a suffix of what the shell wrote, at most 8192 bytes long: the bytes still pending in the BufWriter. Output shorter than 8192 bytes is decoded whole |
| Device.SendCommandIntended | src/device.rs:66-93 | As intended: without a handle the output is empty and nothing is run. A shell error is passed on, and otherwise the output is the decoding of every byte the shell wrote, in order |
| Device.AsWrittenLosesLargeOutput | src/device.rs:82-90 | Shell output written as one chunk of 8192 bytes or more is lost by the code as written, which decodes no bytes, while the intended result decodes the whole chunk |
| Device.AsWrittenDecodesProperSuffix | src/device.rs:82-90 | However the shell chunks its output, output longer than 8192 bytes loses its beginning in the code as written: what is decoded is a proper suffix of what the shell wrote |
| Device.AsWrittenKeepsSmallOutput | src/device.rs:82-90 | For output shorter than 8192 bytes, however the shell chunks it, the code as written and as intended give the same result |
| Device.ConnectDecidesHandle | src/device.rs:55-115 | After connecting with no device found at the device's address and port, commands send nothing and give empty output, both as written and as intended, and pulls fail. With a device found, commands run on it, and a pull succeeds exactly when the transfer from it does |
| Device.SendCommandIgnoresVariant | src/device.rs:76-80 | The command variant never changes what is sent or returned, in the code as written or as intended |
| Device.SourcePathRoundTrip | src/device.rs:110 | The local path `./output/sources/<uuid>.png` and `UuidOf` are inverses in both directions |
| Device.PullImage | src/device.rs:101-115 | Without a handle the result is the "Unable to get the device" error. With a handle it succeeds exactly when the transfer into `./output/sources/<uuid>.png` succeeds, and a success is that path. A failed transfer's error is passed on unchanged |
| Device.FreshDeviceIsDisconnected | src/device.rs:43-115 | Until connected, a freshly initialised device answers every command with empty output, as written and as intended, and cannot pull |
| Decimal.ParseU16Decimal | src/device.rs:135-140 | Parsing a decimal rendering of n as u16, with any leading zeros, gives n when n is at most 65535 and fails otherwise |
| Decimal.DigitRunsSeparated | src/device.rs:128-131 | The `\d+` matches of `a + [x] + b`, for a non-digit x, are the matches of `a` followed by those of `b` |
| Decimal.DigitRunsRun | src/device.rs:128-131 | A non-empty digit string followed by a non-digit or the end is one whole match |
| Decimal.DigitRunsSkip | src/device.rs:128-131 | Text without digits contributes no match |
| Decimal.RunsOfSizeLine | src/device.rs:128-131 | On a line `pre W mid H rest` whose text pieces hold no digits, the matches are W, H and then the matches of `rest` |
| Decimal.ToDecimal | src/device.rs:133-141 | The rendering of n is a non-empty digit string with value n and no leading zero |
| Text.SplitJoin | src/device.rs:123-124 | Joining the pieces of a split with the separator restores the string |
| Text.JoinSplit | src/device.rs:123-124 | Splitting a join of at least one piece, none holding the separator, gives the pieces back |
| Text.SplitConcat | src/device.rs:123-124 | A separator between `a` and `b` splits them apart: the pieces of the whole are those of `a` followed by those of `b` |
| Text.SplitWithoutSep | src/device.rs:123-124 | A string without the separator is a single piece |
| Text.WithoutConcat | src/device.rs:125-126 | Filtering out pieces distributes over concatenation |
| Text.BlankIffOnlySeparators | src/device.rs:123-126 | No non-empty piece remains exactly when the string consists only of separators |
| Ocr.New | src/ocr.rs:26-46 | On success Ocr::new keeps the patterns, every pattern compiles and the set fits its size limit. A failed engine build gives the engine error. Once the engine is built, the result is the invalid-pattern error exactly when some pattern does not compile, and the too-big error exactly when every pattern compiles but the set does not fit. A failed load of the detection model is reported before the recognition model is loaded, and a failed recognition load before the engine is built |
| Ocr.NewSucceedsIff | src/ocr.rs:26-46 | Construction succeeds exactly when both models load, the engine builds, every pattern compiles and the set fits its size limit |
| Ocr.MatchIndices | src/ocr.rs:58-62 | The collected indices are exactly the indices of the patterns that match the text, in strictly ascending order |
| Ocr.Decide | src/ocr.rs:64-76 | A screenshot is routed to deletion exactly when no pattern matches its text |
| Ocr.FileName | src/ocr.rs:113 | A file name holds no separator and is never empty, "." or ".." |
| Ocr.FileNameAfterDir | src/ocr.rs:113-114 | The file name of `dir/name` is `name` |
| Ocr.PushOntoCroppedDir | src/ocr.rs:112-114 | Pushing a relative name onto `./output/cropped` inserts exactly one separator |
| Ocr.CropTargetName | src/ocr.rs:112-116 | The crop target is `./output/cropped/<file name>` and keeps the source's file name when it has one. Otherwise it is `./output/cropped/<uuid>.png` |
| Ocr.SameFileNameSameTarget | src/ocr.rs:112-116 | Two screenshots with the same file name get the same crop target, so the later crop overwrites the earlier |
| Ocr.CropTargetOfPulledImage | src/ocr.rs:112-116 | The screenshot pulled to `./output/sources/<id>.png` is cropped to `./output/cropped/<id>.png` |
| Ocr.ThreadResult | src/ocr.rs:52-80 | The thread returns Ok exactly when the channel drained. It returns Err exactly after a failed delete, carrying that error's text. It panics after a failed extraction or crop |
| Ocr.Handle | src/ocr.rs:53-76 | One iteration acts on the path it received, and only after extraction succeeded. It deletes exactly when no pattern matches, and a completed delete means the removal succeeded. It crops the fixed rectangle to the path's crop target, and a completed crop means the save succeeded. Each way of stopping is tied to its cause: an extraction stop happens exactly when extraction failed |
| Ocr.ProcessOne | src/ocr.rs:53-76 | The loop body, written step by step, computes exactly the iteration `Handle` describes |
| Ocr.WorkerNeverDrains | src/ocr.rs:53-79 | An iteration never ends the run as drained; only running out of received paths does |
| Ocr.RunFrom | src/ocr.rs:52-80 | The receive loop never acts on more paths than it received, and it drains the channel exactly when it acted on every path |
| Ocr.RunFromSteps | src/ocr.rs:53-77 | The k-th action is what the loop body produced on the k-th received path. A run that stops does so at the next path, where the body stopped |
| Ocr.RunAction | src/ocr.rs:53-77 | The k-th action of the whole run is what one iteration completed on the k-th received path |
| Ocr.RunStop | src/ocr.rs:53-77 | A run that does not drain stops at the first path without an action, because the iteration on that path stopped |
| Ocr.ProcessImageLoop | src/ocr.rs:52-80 | The receive loop computes the same actions and halt as the fold, and it handles every path when it drains |
| Ocr.RoutingByMatch | src/ocr.rs:58-76 | Every completed action follows the match rule: the screenshot was deleted exactly when no pattern matched its extracted text |
| Ocr.EmptyPatternsDeleteAll | src/ocr.rs:40-68 | With an empty pattern list every completed action is a delete |
| Ocr.CropsUseFixedRect | src/ocr.rs:112-118 | Every crop cuts the rectangle at (50, 480) of size 1000 by 1000, and its target is the one derived from its source path |
| Ocr.ActionsTookEffect | src/ocr.rs:64-76 | Every completed action took effect: a screenshot reported deleted was removed, and one reported cropped had its rectangle saved to its target |
| Ocr.SourcesInOrder | src/ocr.rs:53-77 | The actions are on the received paths, one each and in order. When the channel drains, every path has its action |
| Ocr.StopsAtFirstFailure | src/ocr.rs:53-79 | The worker drains exactly when every path can be handled. Otherwise it stops at the first path that cannot, after handling every earlier one |
| Ocr.HaltCause | src/ocr.rs:53-79 | A stop is explained by the path it stopped at: extraction failed; or nothing matched and the delete failed; or something matched and the crop failed. The thread panics exactly when extraction or a crop failed, and a failed delete makes it return that error |

## Left out

- Ocr.New: the error values of `Model::load_file`, `OcrEngine::new` and `RegexSet::new`, which the source passes on with `?`, are replaced by tags naming the step that failed. A failed model load carries the path that was being loaded.
- The ADB client is an oracle: the server lookup in `connect`, `shell_command`, `pull` and `File::create`. The `shell` and `transfer` parameters stand in for them.
- `String::from_utf8` is the `decode` oracle. The `shell` oracle gives the chunks `shell_command` writes, one `write_all` each. The adb_client crate is a dependency outside this repository, so whether it writes through `io::copy` or flushes the writer is not modelled. A flush would make the as-written output always empty.
- Parsing the IPv4 address text is an oracle: `Device.Init` receives the outcome of the parse.
- The OCR engine, model files and image decoding are oracles. These cover `Model::load_file`, `OcrEngine::new` and `process_image`, that is `image::open`, `prepare_input` and `get_text`.
- Regex compilation and matching are oracles. `compiles` judges one pattern's syntax, `fits` judges the regex crate's compiled-size limit for the whole set, and `isMatch` does the matching. Only the collecting of the matching indices and the empty-or-not decision are modelled.
- `\d` is modelled as the ASCII digits 0-9. The regex crate's `\d` also matches other Unicode decimal digits, which `parse::<u16>` would then reject.
- The `+` sign that `parse::<u16>` accepts is not modelled, because a `\d+` match never contains one.
- `image::open`, `crop_imm` and `save` in `crop_image_and_store` are one `crop` oracle. Their pixel behaviour is not modelled, including how `crop_imm` clamps a rectangle that exceeds the image.
- Threads and the mpsc channel are reduced to the sequence of paths sent before the sender is dropped, handled in order. The `start_process_image_loop` wrapper that spawns the thread and returns the sender is not modelled separately.
- `Uuid::new_v4` becomes the `uuid` parameter, indexed by iteration. Only its text is used.
- `println!` output is not modelled.
- Paths use Unix semantics only: separator `/`, with empty and `.` components ignored.
- Device.NextProfileButtonCoordinates: requires the screen to be at least 925 by 469 pixels. On a smaller screen the source's `u16` subtraction panics in debug builds and wraps in release builds, and the model states neither.
- Device.SizeFromWmOutput: covers every line of the stated shape rather than characterising `DeviceInfo::new` on arbitrary text. Together with `DigitRunsSeparated` and `DigitRunsRun` it determines the result on any line.
- `DeviceInfo`'s derived `Default` and `Debug` are not modelled.
- `main.rs`, the driver that wires the pieces together, is not modelled.
- The Python face matcher is not modelled.

## Findings

| source | as written | input that shows it | evidently intended | confidence | as-written member | corrected member |
|---|---|---|---|---|---|---|
| src/device.rs:82-90 | The output is decoded from `writer.buffer()`, the bytes the BufWriter has not yet passed to the vector | Shell output written as one chunk of 8192 bytes or more. It goes straight to the vector, so the decoded output is empty. More generally, any output longer than 8192 bytes loses its beginning | Flush the writer and decode the whole vector, so that the output is everything the shell wrote | not executed; medium, because the write pattern of the adb_client crate, a dependency outside this repository, is not part of this model | Device.SendCommandAsWritten (with Device.AsWrittenLosesLargeOutput and Device.AsWrittenDecodesProperSuffix) | Device.SendCommandIntended |

=== FILE: decimal.dfy ===
/** Decimal digits in text: the maximal digit runs that the pattern `\d+`
    finds, the value of a run, and parsing a run as a Rust `u16`. */
module Decimal {
  import opened Wrappers

  newtype u8 = x: int | 0 <= x < 0x100
  newtype u16 = x: int | 0 <= x < 0x1_0000

  predicate IsDigit(c: char) {
    '0' <= c <= '9'
  }

  predicate AllDigits(s: string) {
    forall i :: 0 <= i < |s| ==> IsDigit(s[i])
  }

  predicate NoDigits(s: string) {
    forall i :: 0 <= i < |s| ==> !IsDigit(s[i])
  }

  function DigitValue(c: char): nat
    requires IsDigit(c)
  {
    c as int - '0' as int
  }

  function DigitChar(d: nat): (c: char)
    requires d < 10
    ensures IsDigit(c) && DigitValue(c) == d
  {
    ('0' as int + d) as char
  }

  /** The base-10 value of a digit string, most significant digit first; the
      empty string has value 0. */
  function Value(s: string): nat
    requires AllDigits(s)
    decreases |s|
  {
    if |s| == 0 then 0
    else Value(s[..|s| - 1]) * 10 + DigitValue(s[|s| - 1])
  }

  /** `k` zero digits. */
  function Zeros(k: nat): (z: string)
    ensures |z| == k && AllDigits(z)
    ensures forall i :: 0 <= i < k ==> z[i] == '0'
  {
    seq(k, _ => '0')
  }

  /** The shortest decimal rendering of `n`, as Rust's `Display` writes an
      unsigned integer. */
  function ToDecimal(n: nat): (r: string)
    ensures |r| > 0 && AllDigits(r)
    ensures Value(r) == n
    ensures n > 0 ==> r[0] != '0'
    decreases n
  {
    if n < 10 then [DigitChar(n)]
    else
      var prefix := ToDecimal(n / 10);
      var r := prefix + [DigitChar(n % 10)];
      assert r[..|r| - 1] == prefix;
      r
  }

  /** Rust's `str::parse::<u16>` on a string of digits: the value when it is
      at most 65535, an error for the empty string, for a non-digit and for a
      value that does not fit. */
  function ParseU16(s: string): (r: Option<u16>)
    ensures r.Some? ==> |s| > 0 && AllDigits(s) && r.value as int == Value(s)
  {
    if |s| == 0 || !AllDigits(s) then None
    else if Value(s) < 0x1_0000 then Some(Value(s) as u16)
    else None
  }

  /** Leading zeros do not change a decimal value. */
  lemma {:induction false} LeadingZerosIgnored(k: nat, s: string)
    requires AllDigits(s)
    ensures Value(Zeros(k) + s) == Value(s)
    decreases |s|
  {
    var t := Zeros(k) + s;
    if |s| == 0 {
      assert t == Zeros(k);
      ZerosValue(k);
    } else {
      var init := s[..|s| - 1];
      assert t[..|t| - 1] == Zeros(k) + init;
      assert t[|t| - 1] == s[|s| - 1];
      LeadingZerosIgnored(k, init);
    }
  }

  lemma {:induction false} ZerosValue(k: nat)
    ensures Value(Zeros(k)) == 0
    decreases k
  {
    if k > 0 {
      assert Zeros(k)[..k - 1] == Zeros(k - 1);
      ZerosValue(k - 1);
    }
  }

  /** Parsing a rendering of `n`, with any number of leading zeros, gives `n`
      back when it fits in 16 bits and fails when it does not. */
  lemma ParseU16Decimal(k: nat, n: nat)
    ensures n < 0x1_0000 ==> ParseU16(Zeros(k) + ToDecimal(n)) == Some(n as u16)
    ensures n >= 0x1_0000 ==> ParseU16(Zeros(k) + ToDecimal(n)) == None
  {
    var s := Zeros(k) + ToDecimal(n);
    assert AllDigits(s);
    LeadingZerosIgnored(k, ToDecimal(n));
  }

  /** The length of the run of digits at the start of `s`. */
  function LeadingDigits(s: string): (n: nat)
    ensures n <= |s|
    ensures forall i :: 0 <= i < n ==> IsDigit(s[i])
    ensures n < |s| ==> !IsDigit(s[n])
    decreases |s|
  {
    if |s| == 0 || !IsDigit(s[0]) then 0 else 1 + LeadingDigits(s[1..])
  }

  /** The matches of `\d+` in `s`, left to right: every maximal run of
      consecutive digits. */
  function DigitRuns(s: string): (r: seq<string>)
    ensures forall i :: 0 <= i < |r| ==> |r[i]| > 0 && AllDigits(r[i])
    decreases |s|
  {
    if |s| == 0 then []
    else if !IsDigit(s[0]) then DigitRuns(s[1..])
    else
      var n := LeadingDigits(s);
      [s[..n]] + DigitRuns(s[n..])
  }

  /** A digit run ends at the first non-digit. */
  lemma {:induction false} LeadingDigitsStop(d: string, t: string)
    requires AllDigits(d)
    requires t == [] || !IsDigit(t[0])
    ensures LeadingDigits(d + t) == |d|
    decreases |d|
  {
    if |d| > 0 {
      assert (d + t)[1..] == d[1..] + t;
      LeadingDigitsStop(d[1..], t);
    } else {
      assert d + t == t;
    }
  }

  /** Text without digits before `s` contributes no run. */
  lemma {:induction false} DigitRunsSkip(pre: string, s: string)
    requires NoDigits(pre)
    ensures DigitRuns(pre + s) == DigitRuns(s)
    decreases |pre|
  {
    if |pre| > 0 {
      assert (pre + s)[0] == pre[0];
      assert (pre + s)[1..] == pre[1..] + s;
      DigitRunsSkip(pre[1..], s);
    } else {
      assert pre + s == s;
    }
  }

  /** A non-empty digit string followed by a non-digit (or nothing) is one
      whole run. */
  lemma DigitRunsRun(d: string, t: string)
    requires |d| > 0 && AllDigits(d)
    requires t == [] || !IsDigit(t[0])
    ensures DigitRuns(d + t) == [d] + DigitRuns(t)
  {
    var s := d + t;
    LeadingDigitsStop(d, t);
    assert s[..|d|] == d;
    assert s[|d|..] == t;
  }

  /** A non-digit always separates runs: the runs of `a + [x] + b` are those
      of `a` followed by those of `b`. With `DigitRunsRun` this pins down
      `DigitRuns` on every string. */
  lemma {:induction false} DigitRunsSeparated(a: string, x: char, b: string)
    requires !IsDigit(x)
    ensures DigitRuns(a + [x] + b) == DigitRuns(a) + DigitRuns(b)
    decreases |a|
  {
    if |a| == 0 {
      assert a + [x] + b == [x] + b;
      DigitRunsSkip([x], b);
    } else if !IsDigit(a[0]) {
      var c := [a[0]];
      var a' := a[1..];
      assert a == c + a';
      assert a + [x] + b == c + (a' + [x] + b);
      calc {
        DigitRuns(a + [x] + b);
        { DigitRunsSkip(c, a' + [x] + b); }
        DigitRuns(a' + [x] + b);
        { DigitRunsSeparated(a', x, b); }
        DigitRuns(a') + DigitRuns(b);
        { DigitRunsSkip(c, a'); }
        DigitRuns(a) + DigitRuns(b);
      }
    } else {
      var m := LeadingDigits(a);
      var d := a[..m];
      var a' := a[m..];
      var t := a' + [x] + b;
      assert a == d + a';
      assert a + [x] + b == d + t;
      assert t[0] == if |a'| > 0 then a'[0] else x;
      calc {
        DigitRuns(a + [x] + b);
        { DigitRunsRun(d, t); }
        [d] + DigitRuns(t);
        { DigitRunsSeparated(a', x, b); }
        [d] + (DigitRuns(a') + DigitRuns(b));
        ([d] + DigitRuns(a')) + DigitRuns(b);
        { DigitRunsRun(d, a'); }
        DigitRuns(a) + DigitRuns(b);
      }
    }
  }

  /** The digit runs of `W mid H rest`, where W and H are digit strings and
      `mid` is non-empty text without digits. */
  lemma RunsOfTwoNumbers(w: string, mid: string, h: string, rest: string)
    requires NoDigits(mid) && |mid| > 0
    requires |w| > 0 && AllDigits(w) && |h| > 0 && AllDigits(h)
    requires rest == [] || !IsDigit(rest[0])
    ensures DigitRuns(w + (mid + (h + rest))) == [w] + ([h] + DigitRuns(rest))
  {
    var t := mid + (h + rest);
    assert t[0] == mid[0];
    DigitRunsRun(w, t);
    DigitRunsSkip(mid, h + rest);
    DigitRunsRun(h, rest);
  }

  lemma SkipBeforeTwoNumbers(pre: string, w: string, mid: string, h: string, rest: string)
    requires NoDigits(pre)
    ensures DigitRuns(pre + w + mid + h + rest) == DigitRuns(w + (mid + (h + rest)))
  {
    assert pre + w + mid + h + rest == pre + (w + (mid + (h + rest)));
    DigitRunsSkip(pre, w + (mid + (h + rest)));
  }

  /** The digit runs of a line of the shape `pre W mid H rest`, where W and H
      are digit strings and the text around them holds no digit: W and H
      first, then the runs of `rest`. */
  lemma RunsOfSizeLine(pre: string, w: string, mid: string, h: string, rest: string)
    requires NoDigits(pre) && NoDigits(mid) && |mid| > 0
    requires |w| > 0 && AllDigits(w) && |h| > 0 && AllDigits(h)
    requires rest == [] || !IsDigit(rest[0])
    ensures DigitRuns(pre + w + mid + h + rest) == [w] + ([h] + DigitRuns(rest))
  {
    SkipBeforeTwoNumbers(pre, w, mid, h, rest);
    RunsOfTwoNumbers(w, mid, h, rest);
  }
}

=== FILE: device.dfy ===
/** The device side (src/device.rs): reading the screen size out of the text
    that `wm size` prints, the fixed offset of the "next profile" button, and
    the `Device` wrapper whose ADB handle is absent until `connect`. The ADB
    transport itself is an oracle passed in by the caller. */
module Device {
  import opened Wrappers
  import opened Text
  import opened Decimal

  /** The line separator used to cut ADB output into lines. */
  const AdbOutputNewLine: char := '\n'

  /** The commands the tool sends through ADB. */
  datatype Command = TakeScreenshot | DeviceSize | NextProfile

  /** The screen size of the device, in pixels. */
  datatype DeviceInfo = DeviceInfo(width: u16, height: u16)

  /** The three ways reading the screen size can fail. */
  datatype SizeError = NoWidth | NoHeight | NoSize
  {
    function Message(): string {
      match this
      case NoWidth => "Unable to get the width"
      case NoHeight => "Unable to get the height"
      case NoSize => "Unable to get the size of the device"
    }
  }

  // ---------------------------------------------------------------------
  // DeviceInfo::new

  /** The non-empty lines of ADB output, in order. */
  function Lines(output: string): seq<string> {
    Without(Split(output, AdbOutputNewLine), {""})
  }

  /** Width and height from one line: the first two digit runs, each parsed
      as a u16; later runs are not looked at. */
  function SizeFromLine(line: string): Result<DeviceInfo, SizeError> {
    var size := DigitRuns(line);
    if |size| < 1 || ParseU16(size[0]).None? then Failure(NoWidth)
    else if |size| < 2 || ParseU16(size[1]).None? then Failure(NoHeight)
    else Success(DeviceInfo(ParseU16(size[0]).value, ParseU16(size[1]).value))
  }

  /** DeviceInfo::new: the size read from the last non-empty line of the
      output of `wm size`. */
  function NewDeviceInfo(output: string): Result<DeviceInfo, SizeError> {
    var info := Lines(output);
    if |info| == 0 then Failure(NoSize)
    else SizeFromLine(info[|info| - 1])
  }

  /** `before` is empty or ends a line, so whatever follows starts a line. */
  predicate AtLineStart(before: string) {
    before == [] || before[|before| - 1] == AdbOutputNewLine
  }

  /** A line followed only by line breaks leaves just that line once blank
      pieces are dropped. */
  lemma LineThenBlanks(line: string, after: string)
    requires line != [] && AdbOutputNewLine !in line
    requires OnlyChar(after, AdbOutputNewLine)
    ensures Lines(line + after) == [line]
  {
    var nl := AdbOutputNewLine;
    SplitWithoutSep(line, nl);
    if |after| == 0 {
      assert line + after == line;
    } else {
      var after' := after[1..];
      assert after == [nl] + after';
      assert OnlyChar(after', nl) by {
        forall i | 0 <= i < |after'| ensures after'[i] == nl {
          assert after'[i] == after[i + 1];
        }
      }
      assert line + after == line + [nl] + after';
      SplitConcat(line, after', nl);
      BlankIffOnlySeparators(after', nl);
      WithoutConcat([line], Split(after', nl), {""});
    }
  }

  /** Lines that follow a completed line are appended to the lines before. */
  lemma LinesAfterLineBreak(b: string, rest: string)
    ensures Lines(b + [AdbOutputNewLine] + rest) == Lines(b) + Lines(rest)
  {
    SplitConcat(b, rest, AdbOutputNewLine);
    WithoutConcat(Split(b, AdbOutputNewLine), Split(rest, AdbOutputNewLine), {""});
  }

  /** Only the last non-empty line decides the size: whatever lines come
      before it, and however many blank lines follow it. */
  lemma LastLineDecides(before: string, line: string, after: string)
    requires AtLineStart(before)
    requires line != [] && AdbOutputNewLine !in line
    requires OnlyChar(after, AdbOutputNewLine)
    ensures NewDeviceInfo(before + line + after) == SizeFromLine(line)
  {
    LineThenBlanks(line, after);
    if |before| == 0 {
      assert before + line + after == line + after;
    } else {
      var b := before[..|before| - 1];
      assert before == b + [AdbOutputNewLine];
      assert before + line + after == b + [AdbOutputNewLine] + (line + after);
      LinesAfterLineBreak(b, line + after);
    }
  }

  /** Output holding no non-empty line (such as "" or "\n\n") is the
      "Unable to get the size of the device" error, and no other output
      gives that error. */
  lemma NoSizeIffBlank(output: string)
    ensures NewDeviceInfo(output) == Failure(NoSize) <==> OnlyChar(output, AdbOutputNewLine)
  {
    BlankIffOnlySeparators(output, AdbOutputNewLine);
  }

  /** A trailing line break does not change the result. */
  lemma TrailingNewLineIgnored(output: string)
    ensures NewDeviceInfo(output + [AdbOutputNewLine]) == NewDeviceInfo(output)
  {
    var nl := AdbOutputNewLine;
    assert output + [nl] == output + [nl] + [];
    SplitConcat(output, [], nl);
    assert Split([], nl) == [""];
    WithoutConcat(Split(output, nl), [""], {""});
  }

  /** A later non-blank line overrides everything before it, as when `wm size`
      prints an "Override size" line after the "Physical size" line. */
  lemma LaterLineWins(earlier: string, later: string)
    requires !OnlyChar(later, AdbOutputNewLine)
    ensures NewDeviceInfo(earlier + [AdbOutputNewLine] + later) == NewDeviceInfo(later)
  {
    LinesAfterLineBreak(earlier, later);
    BlankIffOnlySeparators(later, AdbOutputNewLine);
  }

  /** No line break hides inside a line assembled from digits and
      break-free text. */
  lemma NoNewLineInSizeLine(pre: string, w: string, mid: string, h: string, rest: string)
    requires AllDigits(w) && AllDigits(h)
    requires AdbOutputNewLine !in pre && AdbOutputNewLine !in mid && AdbOutputNewLine !in rest
    ensures AdbOutputNewLine !in pre + w + mid + h + rest
  {
    assert !IsDigit(AdbOutputNewLine);
  }

  /** The size read from a typical `wm size` answer: on the last non-empty
      line, the first two digit runs (each possibly with leading zeros) give
      width and height when each is at most 65535; any later runs are
      ignored. For example "Physical size: 1080x2400\n" gives 1080 by 2400,
      and "0080x0090" gives 80 by 90. */
  lemma SizeFromWmOutput(before: string, line: string, after: string,
                         pre: string, zw: nat, w: nat, mid: string, zh: nat, h: nat, rest: string)
    requires AtLineStart(before) && OnlyChar(after, AdbOutputNewLine)
    requires line == pre + (Zeros(zw) + ToDecimal(w)) + mid + (Zeros(zh) + ToDecimal(h)) + rest
    requires NoDigits(pre) && NoDigits(mid) && |mid| > 0
    requires rest == [] || !IsDigit(rest[0])
    requires AdbOutputNewLine !in pre && AdbOutputNewLine !in mid && AdbOutputNewLine !in rest
    requires w < 0x1_0000 && h < 0x1_0000
    ensures NewDeviceInfo(before + line + after) == Success(DeviceInfo(w as u16, h as u16))
  {
    SizeOfTwoNumbers(line, pre, Zeros(zw) + ToDecimal(w), mid, Zeros(zh) + ToDecimal(h), rest, w, h, zw, zh);
    LastLineDecides(before, line, after);
  }

  lemma SizeOfTwoNumbers(line: string, pre: string, W: string, mid: string, H: string, rest: string,
                         w: nat, h: nat, zw: nat, zh: nat)
    requires line == pre + W + mid + H + rest
    requires W == Zeros(zw) + ToDecimal(w) && H == Zeros(zh) + ToDecimal(h)
    requires NoDigits(pre) && NoDigits(mid) && |mid| > 0
    requires rest == [] || !IsDigit(rest[0])
    requires w < 0x1_0000 && h < 0x1_0000
    requires AdbOutputNewLine !in pre && AdbOutputNewLine !in mid && AdbOutputNewLine !in rest
    ensures line != [] && AdbOutputNewLine !in line
    ensures SizeFromLine(line) == Success(DeviceInfo(w as u16, h as u16))
  {
    NoNewLineInSizeLine(pre, W, mid, H, rest);
    RunsOfSizeLine(pre, W, mid, H, rest);
    ParseU16Decimal(zw, w);
    ParseU16Decimal(zh, h);
  }

  /** A last line without any digit is the width error. */
  lemma NoDigitRunIsWidthError(before: string, line: string, after: string)
    requires AtLineStart(before) && OnlyChar(after, AdbOutputNewLine)
    requires line != [] && AdbOutputNewLine !in line && NoDigits(line)
    ensures NewDeviceInfo(before + line + after) == Failure(NoWidth)
  {
    LastLineDecides(before, line, after);
    DigitRunsSkip(line, []);
    assert line + [] == line;
  }

  /** A last line with exactly one digit run that fits is the height error. */
  lemma OneDigitRunIsHeightError(before: string, line: string, after: string,
                                 pre: string, z: nat, w: nat, post: string)
    requires AtLineStart(before) && OnlyChar(after, AdbOutputNewLine)
    requires line == pre + (Zeros(z) + ToDecimal(w)) + post
    requires NoDigits(pre) && NoDigits(post)
    requires AdbOutputNewLine !in pre && AdbOutputNewLine !in post
    requires w < 0x1_0000
    ensures NewDeviceInfo(before + line + after) == Failure(NoHeight)
  {
    var W := Zeros(z) + ToDecimal(w);
    assert line == pre + (W + post);
    NoNewLineInSizeLine(pre, W, post, [], []);
    assert pre + W + post + [] + [] == line;
    LastLineDecides(before, line, after);
    DigitRunsSkip(pre, W + post);
    DigitRunsRun(W, post);
    DigitRunsSkip(post, []);
    assert post + [] == post;
    ParseU16Decimal(z, w);
  }

  /** A first digit run above 65535, with or without leading zeros, is the
      width error, whatever follows. */
  lemma WidthOverflowIsWidthError(before: string, line: string, after: string,
                                  pre: string, z: nat, w: nat, rest: string)
    requires AtLineStart(before) && OnlyChar(after, AdbOutputNewLine)
    requires line == pre + (Zeros(z) + ToDecimal(w)) + rest
    requires NoDigits(pre) && (rest == [] || !IsDigit(rest[0]))
    requires AdbOutputNewLine !in pre && AdbOutputNewLine !in rest
    requires w >= 0x1_0000
    ensures NewDeviceInfo(before + line + after) == Failure(NoWidth)
  {
    WidthOverflowOnLine(line, pre, Zeros(z) + ToDecimal(w), rest, z, w);
    LastLineDecides(before, line, after);
  }

  /** On one line: a first digit run that does not fit in 16 bits is the
      width error. */
  lemma WidthOverflowOnLine(line: string, pre: string, W: string, rest: string, z: nat, w: nat)
    requires line == pre + W + rest && W == Zeros(z) + ToDecimal(w)
    requires NoDigits(pre) && (rest == [] || !IsDigit(rest[0]))
    requires AdbOutputNewLine !in pre && AdbOutputNewLine !in rest
    requires w >= 0x1_0000
    ensures line != [] && AdbOutputNewLine !in line
    ensures SizeFromLine(line) == Failure(NoWidth)
  {
    NoNewLineInSizeLine(pre, W, rest, [], []);
    assert pre + W + rest + [] + [] == line;
    FirstRunTooWide(pre, W, rest, z, w);
  }

  lemma FirstRunTooWide(pre: string, W: string, rest: string, z: nat, w: nat)
    requires W == Zeros(z) + ToDecimal(w)
    requires NoDigits(pre) && (rest == [] || !IsDigit(rest[0]))
    requires w >= 0x1_0000
    ensures SizeFromLine(pre + W + rest) == Failure(NoWidth)
  {
    assert pre + W + rest == pre + (W + rest);
    DigitRunsSkip(pre, W + rest);
    DigitRunsRun(W, rest);
    ParseU16Decimal(z, w);
  }

  /** A width that fits followed by a second digit run above 65535, either
      possibly with leading zeros, is the height error. */
  lemma HeightOverflowIsHeightError(before: string, line: string, after: string,
                                    pre: string, zw: nat, w: nat, mid: string, zh: nat, h: nat, rest: string)
    requires AtLineStart(before) && OnlyChar(after, AdbOutputNewLine)
    requires line == pre + (Zeros(zw) + ToDecimal(w)) + mid + (Zeros(zh) + ToDecimal(h)) + rest
    requires NoDigits(pre) && NoDigits(mid) && |mid| > 0
    requires rest == [] || !IsDigit(rest[0])
    requires AdbOutputNewLine !in pre && AdbOutputNewLine !in mid && AdbOutputNewLine !in rest
    requires w < 0x1_0000 && h >= 0x1_0000
    ensures NewDeviceInfo(before + line + after) == Failure(NoHeight)
  {
    HeightOverflowOnLine(line, pre, Zeros(zw) + ToDecimal(w), mid, Zeros(zh) + ToDecimal(h), rest, w, h, zw, zh);
    LastLineDecides(before, line, after);
  }

  /** On one line: a first run that fits and a second that does not is the
      height error. */
  lemma HeightOverflowOnLine(line: string, pre: string, W: string, mid: string, H: string, rest: string,
                             w: nat, h: nat, zw: nat, zh: nat)
    requires line == pre + W + mid + H + rest
    requires W == Zeros(zw) + ToDecimal(w) && H == Zeros(zh) + ToDecimal(h)
    requires NoDigits(pre) && NoDigits(mid) && |mid| > 0
    requires rest == [] || !IsDigit(rest[0])
    requires w < 0x1_0000 && h >= 0x1_0000
    requires AdbOutputNewLine !in pre && AdbOutputNewLine !in mid && AdbOutputNewLine !in rest
    ensures line != [] && AdbOutputNewLine !in line
    ensures SizeFromLine(line) == Failure(NoHeight)
  {
    NoNewLineInSizeLine(pre, W, mid, H, rest);
    RunsOfSizeLine(pre, W, mid, H, rest);
    assert DigitRuns(line)[0] == W && DigitRuns(line)[1] == H;
    ParseU16Decimal(zw, w);
    ParseU16Decimal(zh, h);
  }

  // ---------------------------------------------------------------------
  // DeviceInfo::get_next_profile_button_coordinates

  /** Distance of the "next profile" button from the right and bottom edges
      of the screen. */
  const ButtonOffsetX: u16 := 925
  const ButtonOffsetY: u16 := 469

  /** The button position, measured back from the bottom-right corner. The
      source subtracts in u16, which panics (debug) or wraps (release) on a
      screen smaller than the offsets; the precondition rules that out. */
  function NextProfileButtonCoordinates(info: DeviceInfo): (r: (u16, u16))
    requires info.width >= ButtonOffsetX && info.height >= ButtonOffsetY
    ensures r.0 as int + ButtonOffsetX as int == info.width as int
    ensures r.1 as int + ButtonOffsetY as int == info.height as int
    ensures r.0 <= info.width && r.1 <= info.height
  {
    (info.width - ButtonOffsetX, info.height - ButtonOffsetY)
  }

  // ---------------------------------------------------------------------
  // Device

  datatype Ipv4Addr = Ipv4Addr(a: u8, b: u8, c: u8, d: u8)

  /** The ADB connection settings and the device handle of type `H`, absent
      until `Connect` finds a device. */
  datatype Device<H> = Device(address: Ipv4Addr, port: u16, device: Option<H>)

  /** Device::init. `parsed` is the outcome of parsing the address text as an
      IPv4 address; its failure is the only error. The new device has no
      handle. */
  function Init<H>(parsed: Result<Ipv4Addr, string>, port: u16): (r: Result<Device<H>, string>)
    ensures r.Success? <==> parsed.Success?
    ensures r.Failure? ==> r.error == parsed.error
    ensures r.Success? ==> r.value.device.None?
    ensures r.Success? ==> r.value.address == parsed.value && r.value.port == port
  {
    match parsed
    case Failure(e) => Failure(e)
    case Success(addr) => Success(Device(addr, port, None))
  }

  /** Device::connect. `lookup` asks the ADB server at an address and port
      for its device (no device when the lookup failed). The server at the
      device's own address and port is asked, its answer becomes the handle,
      and connecting never fails. */
  function Connect<H>(d: Device<H>, lookup: (Ipv4Addr, u16) -> Option<H>): (r: (Device<H>, Outcome<string>))
    ensures r.1 == Pass
    ensures r.0.address == d.address && r.0.port == d.port
    ensures r.0.device == lookup(d.address, d.port)
  {
    (d.(device := lookup(d.address, d.port)), Pass)
  }

  /** The argument vector sent to the device shell for a command. */
  function CommandArgs(cmd: Command, cmdArg: string): (args: seq<string>)
    ensures |args| == 1 && args[0] == cmdArg
  {
    match cmd
    case DeviceSize => [cmdArg]
    case TakeScreenshot => [cmdArg]
    case NextProfile => [cmdArg]
  }

  // ---------------------------------------------------------------------
  // The output buffer of send_command

  /** The capacity `BufWriter::new` gives its buffer. */
  const BufWriterCapacity: nat := 8192

  /** The vector `send_command` hands out for output (`flushed`) and the
      bytes the BufWriter wrapped around it still holds (`pending`). */
  datatype Buffered = Buffered(flushed: seq<u8>, pending: seq<u8>)

  /** The bytes of the chunks, in order. */
  function Flatten(chunks: seq<seq<u8>>): seq<u8>
    decreases |chunks|
  {
    if |chunks| == 0 then [] else chunks[0] + Flatten(chunks[1..])
  }

  /** BufWriter's `write_all` of one chunk into a vector: a chunk smaller
      than the spare room is buffered; otherwise the pending bytes are
      flushed first when the chunk does not fit, and a chunk at least as
      large as the whole buffer goes straight to the vector. No byte is lost
      or reordered, and a large chunk leaves nothing pending. */
  function BufferedWrite(w: Buffered, chunk: seq<u8>): (r: Buffered)
    requires |w.pending| <= BufWriterCapacity
    ensures |r.pending| <= BufWriterCapacity
    ensures r.flushed + r.pending == w.flushed + w.pending + chunk
    ensures |chunk| >= BufWriterCapacity ==> r.pending == []
    ensures |w.pending| + |chunk| < BufWriterCapacity ==> r == Buffered(w.flushed, w.pending + chunk)
  {
    var spare := BufWriterCapacity - |w.pending|;
    if |chunk| < spare then Buffered(w.flushed, w.pending + chunk)
    else
      var v := if |chunk| > spare then Buffered(w.flushed + w.pending, []) else w;
      if |chunk| >= BufWriterCapacity then Buffered(v.flushed + chunk, v.pending)
      else Buffered(v.flushed, v.pending + chunk)
  }

  /** The writer after the device shell wrote `chunks` into it, one
      `write_all` each: the vector and the buffer together hold exactly what
      was written. */
  function WriteChunks(w: Buffered, chunks: seq<seq<u8>>): (r: Buffered)
    requires |w.pending| <= BufWriterCapacity
    ensures |r.pending| <= BufWriterCapacity
    ensures r.flushed + r.pending == w.flushed + w.pending + Flatten(chunks)
    decreases |chunks|
  {
    if |chunks| == 0 then w
    else
      var next := BufferedWrite(w, chunks[0]);
      var r := WriteChunks(next, chunks[1..]);
      assert w.flushed + w.pending + Flatten(chunks)
          == (w.flushed + w.pending + chunks[0]) + Flatten(chunks[1..]);
      r
  }

  /** `r` decodes the last bytes of `all`, at most a buffer's capacity of
      them. */
  ghost predicate SuffixDecoded(r: Result<string, string>, all: seq<u8>, decode: seq<u8> -> Result<string, string>)
  {
    exists k :: 0 <= k <= |all| && |all| - k <= BufWriterCapacity && r == decode(all[k..])
  }

  /** Output that fits in the buffer is never flushed: written in any
      chunks into a writer with nothing flushed yet, all of it stays
      pending. */
  lemma {:induction false} SmallStaysPending(w: Buffered, chunks: seq<seq<u8>>)
    requires w.flushed == [] && |w.pending| + |Flatten(chunks)| < BufWriterCapacity
    ensures WriteChunks(w, chunks) == Buffered([], w.pending + Flatten(chunks))
    decreases |chunks|
  {
    if |chunks| > 0 {
      assert |Flatten(chunks)| == |chunks[0]| + |Flatten(chunks[1..])|;
      var next := BufferedWrite(w, chunks[0]);
      assert next == Buffered([], w.pending + chunks[0]);
      SmallStaysPending(next, chunks[1..]);
      assert next.pending + Flatten(chunks[1..]) == w.pending + Flatten(chunks);
    } else {
      assert w.pending + Flatten(chunks) == w.pending;
    }
  }

  /** Device::send_command as written: the output is decoded from
      `writer.buffer()`, the bytes still pending in the BufWriter, so bytes
      already flushed into the vector are not part of it. `shell` runs the
      arguments on a device and gives the chunks it wrote, `decode` is
      `String::from_utf8`. Without a handle nothing is run and the output is
      empty. Output shorter than the buffer stays pending and is decoded
      whole. */
  function SendCommandAsWritten<H>(d: Device<H>, cmd: Command, cmdArg: string,
                                   shell: (H, seq<string>) -> Result<seq<seq<u8>>, string>,
                                   decode: seq<u8> -> Result<string, string>): (r: Result<string, string>)
    ensures d.device.None? ==> r == Success("")
    ensures d.device.Some? && shell(d.device.value, [cmdArg]).Failure? ==>
              r == Failure(shell(d.device.value, [cmdArg]).error)
    ensures d.device.Some? && shell(d.device.value, [cmdArg]).Success? ==>
              SuffixDecoded(r, Flatten(shell(d.device.value, [cmdArg]).value), decode)
    ensures d.device.Some? && shell(d.device.value, [cmdArg]).Success? &&
            |Flatten(shell(d.device.value, [cmdArg]).value)| < BufWriterCapacity ==>
              r == decode(Flatten(shell(d.device.value, [cmdArg]).value))
  {
    var args := CommandArgs(cmd, cmdArg);
    match d.device
    case None => Success("")
    case Some(h) =>
      match shell(h, args)
      case Failure(e) => Failure(e)
      case Success(chunks) =>
        var w := WriteChunks(Buffered([], []), chunks);
        var all := Flatten(chunks);
        var k := |w.flushed|;
        assert w.flushed + w.pending == all;
        assert all[k..] == w.pending;
        assert args == [cmdArg];
        assert shell(d.device.value, [cmdArg]) == Success(chunks);
        assert 0 <= k <= |all| && |all| - k <= BufWriterCapacity && decode(w.pending) == decode(all[k..]);
        assert |all| < BufWriterCapacity ==> w.pending == all by {
          if |all| < BufWriterCapacity {
            SmallStaysPending(Buffered([], []), chunks);
          }
        }
        decode(w.pending)
  }

  /** Device::send_command as intended: the writer is flushed and the whole
      vector decoded, so the output is everything the shell wrote. */
  function SendCommandIntended<H>(d: Device<H>, cmd: Command, cmdArg: string,
                          shell: (H, seq<string>) -> Result<seq<seq<u8>>, string>,
                          decode: seq<u8> -> Result<string, string>): (r: Result<string, string>)
    ensures d.device.None? ==> r == Success("")
    ensures d.device.Some? && shell(d.device.value, [cmdArg]).Failure? ==>
              r == Failure(shell(d.device.value, [cmdArg]).error)
    ensures d.device.Some? && shell(d.device.value, [cmdArg]).Success? ==>
              r == decode(Flatten(shell(d.device.value, [cmdArg]).value))
  {
    var args := CommandArgs(cmd, cmdArg);
    match d.device
    case None => Success("")
    case Some(h) =>
      match shell(h, args)
      case Failure(e) => Failure(e)
      case Success(chunks) =>
        var w := WriteChunks(Buffered([], []), chunks);
        assert w.flushed + w.pending == Flatten(chunks);
        decode(w.flushed + w.pending)
  }

  /** Output the shell writes in one chunk of at least the buffer's capacity
      bypasses the buffer: as written, `send_command` decodes no bytes at all,
      where the intended result decodes the whole chunk. */
  lemma AsWrittenLosesLargeOutput<H>(d: Device<H>, cmd: Command, cmdArg: string,
                                     shell: (H, seq<string>) -> Result<seq<seq<u8>>, string>,
                                     decode: seq<u8> -> Result<string, string>, chunk: seq<u8>)
    requires d.device.Some? && shell(d.device.value, [cmdArg]) == Success([chunk])
    requires |chunk| >= BufWriterCapacity
    ensures SendCommandAsWritten(d, cmd, cmdArg, shell, decode) == decode([])
    ensures SendCommandIntended(d, cmd, cmdArg, shell, decode) == decode(chunk)
  {
    var w := BufferedWrite(Buffered([], []), chunk);
    assert WriteChunks(Buffered([], []), [chunk]) == WriteChunks(w, []);
    assert [chunk][1..] == [];
    assert Flatten([chunk]) == chunk + [] == chunk;
  }

  /** Output shorter than the buffer's capacity, however the shell chunks
      it, is all still pending, so there the code as written and as intended
      agree. */
  lemma AsWrittenKeepsSmallOutput<H>(d: Device<H>, cmd: Command, cmdArg: string,
                                     shell: (H, seq<string>) -> Result<seq<seq<u8>>, string>,
                                     decode: seq<u8> -> Result<string, string>)
    requires d.device.Some? && shell(d.device.value, [cmdArg]).Success?
    requires |Flatten(shell(d.device.value, [cmdArg]).value)| < BufWriterCapacity
    ensures SendCommandAsWritten(d, cmd, cmdArg, shell, decode) == SendCommandIntended(d, cmd, cmdArg, shell, decode)
  {
    SmallStaysPending(Buffered([], []), shell(d.device.value, [cmdArg]).value);
  }

  /** However the shell chunks its output, output longer than the buffer's
      capacity loses its beginning in the code as written: what is decoded is
      a proper suffix of what the shell wrote. */
  lemma AsWrittenDecodesProperSuffix<H>(d: Device<H>, cmd: Command, cmdArg: string,
                                        shell: (H, seq<string>) -> Result<seq<seq<u8>>, string>,
                                        decode: seq<u8> -> Result<string, string>)
    requires d.device.Some? && shell(d.device.value, [cmdArg]).Success?
    requires |Flatten(shell(d.device.value, [cmdArg]).value)| > BufWriterCapacity
    ensures var all := Flatten(shell(d.device.value, [cmdArg]).value);
            exists k :: 0 < k <= |all| && SendCommandAsWritten(d, cmd, cmdArg, shell, decode) == decode(all[k..])
  {
    var all := Flatten(shell(d.device.value, [cmdArg]).value);
    var r := SendCommandAsWritten(d, cmd, cmdArg, shell, decode);
    var k :| 0 <= k <= |all| && |all| - k <= BufWriterCapacity && r == decode(all[k..]);
    assert 0 < k;
  }

  /** The command variant never changes what is sent, in the code as written
      or as intended. */
  lemma SendCommandIgnoresVariant<H>(d: Device<H>, c1: Command, c2: Command, cmdArg: string,
                                     shell: (H, seq<string>) -> Result<seq<seq<u8>>, string>,
                                     decode: seq<u8> -> Result<string, string>)
    ensures SendCommandIntended(d, c1, cmdArg, shell, decode) == SendCommandIntended(d, c2, cmdArg, shell, decode)
    ensures SendCommandAsWritten(d, c1, cmdArg, shell, decode) == SendCommandAsWritten(d, c2, cmdArg, shell, decode)
  {
  }

  /** Where a pulled screenshot is stored locally. */
  const SourcesDir: string := "./output/sources/"
  const PngSuffix: string := ".png"

  function SourcePath(uuid: string): (p: string)
    ensures |p| == |SourcesDir| + |uuid| + |PngSuffix|
  {
    SourcesDir + uuid + PngSuffix
  }

  /** The identifier a local screenshot path was made from, if it has the
      shape of one. */
  function UuidOf(p: string): Option<string> {
    var n := |SourcesDir|;
    var m := |PngSuffix|;
    if |p| >= n + m && p[..n] == SourcesDir && p[|p| - m..] == PngSuffix
    then Some(p[n..|p| - m])
    else None
  }

  /** SourcePath and UuidOf are inverse: every identifier is recovered from
      its path, and every path with that shape is the path of its
      identifier. */
  lemma SourcePathRoundTrip(uuid: string, p: string)
    ensures UuidOf(SourcePath(uuid)) == Some(uuid)
    ensures UuidOf(p).Some? ==> SourcePath(UuidOf(p).value) == p
  {
    var s := SourcePath(uuid);
    assert s[..|SourcesDir|] == SourcesDir;
    assert s[|s| - |PngSuffix|..] == PngSuffix;
    assert s[|SourcesDir|..|s| - |PngSuffix|] == uuid;
    if UuidOf(p).Some? {
      var n := |SourcesDir|;
      var m := |PngSuffix|;
      assert p == p[..n] + p[n..|p| - m] + p[|p| - m..];
    }
  }

  /** Device::pull_image. Without a handle it fails with "Unable to get the
      device"; otherwise it copies `remote` into the local path made from
      `uuid` (`transfer` creates the file and pulls into it) and returns that
      path, or passes on the transfer's error. */
  function PullImage<H>(d: Device<H>, remote: string, uuid: string,
                        transfer: (H, string, string) -> Outcome<string>): (r: Result<string, string>)
    ensures d.device.None? ==> r == Failure("Unable to get the device")
    ensures r.Success? ==> UuidOf(r.value) == Some(uuid)
    ensures d.device.Some? ==> (r.Success? <==> transfer(d.device.value, remote, SourcePath(uuid)).Pass?)
    ensures d.device.Some? && transfer(d.device.value, remote, SourcePath(uuid)).Fail? ==>
              r == Failure(transfer(d.device.value, remote, SourcePath(uuid)).error)
  {
    match d.device
    case None => Failure("Unable to get the device")
    case Some(h) =>
      var local := SourcePath(uuid);
      SourcePathRoundTrip(uuid, local);
      match transfer(h, remote, local)
      case Fail(e) => Failure(e)
      case Pass => Success(local)
  }

  /** Connecting decides what the device can do afterwards: when the server
      at the device's address and port reports no device, it still sends
      nothing (in the code as written and as intended) and cannot pull; when
      it reports one, commands run on that device and a pull succeeds exactly
      when the transfer from it does. */
  lemma ConnectDecidesHandle<H>(d: Device<H>, lookup: (Ipv4Addr, u16) -> Option<H>,
                                cmd: Command, cmdArg: string, remote: string, uuid: string,
                                shell: (H, seq<string>) -> Result<seq<seq<u8>>, string>,
                                decode: seq<u8> -> Result<string, string>,
                                transfer: (H, string, string) -> Outcome<string>)
    ensures var c := Connect(d, lookup).0;
      var found := lookup(d.address, d.port);
      && (found.None? ==>
            && SendCommandIntended(c, cmd, cmdArg, shell, decode) == Success("")
            && SendCommandAsWritten(c, cmd, cmdArg, shell, decode) == Success("")
            && PullImage(c, remote, uuid, transfer) == Failure("Unable to get the device"))
      && (found.Some? && shell(found.value, [cmdArg]).Success? ==>
            SendCommandIntended(c, cmd, cmdArg, shell, decode) == decode(Flatten(shell(found.value, [cmdArg]).value)))
      && (found.Some? ==>
            (PullImage(c, remote, uuid, transfer).Success? <==> transfer(found.value, remote, SourcePath(uuid)).Pass?))
  {
  }

  /** Until it is connected, an initialised device answers every command with
      empty output, in the code as written and as intended, and cannot pull
      files. */
  lemma FreshDeviceIsDisconnected<H>(parsed: Result<Ipv4Addr, string>, port: u16,
                                     cmd: Command, cmdArg: string, remote: string, uuid: string,
                                     shell: (H, seq<string>) -> Result<seq<seq<u8>>, string>,
                                     decode: seq<u8> -> Result<string, string>,
                                     transfer: (H, string, string) -> Outcome<string>)
    requires parsed.Success?
    ensures var d := Init<H>(parsed, port).value;
            && SendCommandIntended(d, cmd, cmdArg, shell, decode) == Success("")
            && SendCommandAsWritten(d, cmd, cmdArg, shell, decode) == Success("")
            && PullImage(d, remote, uuid, transfer) == Failure("Unable to get the device")
  {
  }
}

=== FILE: ocr.dfy ===
/** The recognition side (src/ocr.rs): building the OCR handle, and the
    worker loop that takes screenshot paths in the order they were sent,
    extracts their text, and deletes each screenshot that matches no pattern
    and crops each one that matches some pattern. Text extraction, pattern
    matching, file removal, cropping and UUID generation are oracles gathered
    in `Env`. */
module Ocr {
  import opened Wrappers
  import opened Text
  import Device

  type Path = string

  // ---------------------------------------------------------------------
  // Ocr::new

  /** Why building the OCR handle failed. Building the pattern set fails on
      a pattern that is not valid regex syntax, and also when the patterns,
      each valid, compile together to more than the set's size limit. */
  datatype OcrError = ModelLoadFailed(path: Path) | EngineFailed | PatternInvalid | SetTooBig

  /** The OCR engine of type `E` and the patterns compiled into one set. */
  datatype Ocr<E> = Ocr(engine: E, patterns: seq<string>)

  /** Ocr::new. `load` reads a model file, `build` makes an engine from a
      detection and a recognition model, `compiles` says whether one pattern
      is valid regex syntax, and `fits` whether a list of valid patterns stays
      within the set's compiled-size limit. The steps run in this order and
      the first failure is the result; syntax is checked for every pattern
      before the set is compiled. */
  function New<M, E>(detectionModel: Path, recognitionModel: Path, patterns: seq<string>,
                     load: Path -> Option<M>, build: (M, M) -> Option<E>,
                     compiles: string -> bool, fits: seq<string> -> bool): (r: Result<Ocr<E>, OcrError>)
    ensures r.Success? ==> r.value.patterns == patterns
    ensures r.Success? ==> fits(patterns) && forall i :: 0 <= i < |patterns| ==> compiles(patterns[i])
    ensures r == Failure(PatternInvalid) ==> exists i :: 0 <= i < |patterns| && !compiles(patterns[i])
    ensures r == Failure(SetTooBig) ==>
              !fits(patterns) && forall i :: 0 <= i < |patterns| ==> compiles(patterns[i])
    ensures load(detectionModel).None? ==> r == Failure(ModelLoadFailed(detectionModel))
    ensures load(detectionModel).Some? && load(recognitionModel).None? ==>
              r == Failure(ModelLoadFailed(recognitionModel))
    ensures load(detectionModel).Some? && load(recognitionModel).Some? &&
            build(load(detectionModel).value, load(recognitionModel).value).None? ==>
              r == Failure(EngineFailed)
    ensures load(detectionModel).Some? && load(recognitionModel).Some? &&
            build(load(detectionModel).value, load(recognitionModel).value).Some? &&
            (exists i :: 0 <= i < |patterns| && !compiles(patterns[i])) ==>
              r == Failure(PatternInvalid)
    ensures load(detectionModel).Some? && load(recognitionModel).Some? &&
            build(load(detectionModel).value, load(recognitionModel).value).Some? &&
            (forall i :: 0 <= i < |patterns| ==> compiles(patterns[i])) && !fits(patterns) ==>
              r == Failure(SetTooBig)
  {
    match load(detectionModel)
    case None => Failure(ModelLoadFailed(detectionModel))
    case Some(detection) =>
      match load(recognitionModel)
      case None => Failure(ModelLoadFailed(recognitionModel))
      case Some(recognition) =>
        match build(detection, recognition)
        case None => Failure(EngineFailed)
        case Some(engine) =>
          if !(forall i :: 0 <= i < |patterns| ==> compiles(patterns[i])) then Failure(PatternInvalid)
          else if !fits(patterns) then Failure(SetTooBig)
          else Success(Ocr(engine, patterns))
  }

  /** Construction succeeds exactly when both models load, the engine builds,
      every pattern compiles and the set fits its size limit. */
  lemma NewSucceedsIff<M, E>(detectionModel: Path, recognitionModel: Path, patterns: seq<string>,
                             load: Path -> Option<M>, build: (M, M) -> Option<E>,
                             compiles: string -> bool, fits: seq<string> -> bool)
    ensures New(detectionModel, recognitionModel, patterns, load, build, compiles, fits).Success?
        <==> && load(detectionModel).Some?
             && load(recognitionModel).Some?
             && build(load(detectionModel).value, load(recognitionModel).value).Some?
             && (forall i :: 0 <= i < |patterns| ==> compiles(patterns[i]))
             && fits(patterns)
  {
  }

  // ---------------------------------------------------------------------
  // Matching and routing

  /** Some pattern matches the text. */
  predicate AnyMatch(patterns: seq<string>, text: string, isMatch: (string, string) -> bool) {
    exists i :: 0 <= i < |patterns| && isMatch(patterns[i], text)
  }

  /** The indices of the patterns that match the text, ascending: what
      iterating over `RegexSet::matches` yields. */
  function MatchIndices(patterns: seq<string>, text: string, isMatch: (string, string) -> bool): (r: seq<nat>)
    ensures forall k: int :: k in r <==> 0 <= k < |patterns| && isMatch(patterns[k], text)
    ensures forall a, b :: 0 <= a < b < |r| ==> r[a] < r[b]
    decreases |patterns|
  {
    if |patterns| == 0 then []
    else
      var last := |patterns| - 1;
      var init := patterns[..last];
      var r := MatchIndices(init, text, isMatch);
      assert |init| == last;
      assert forall k :: 0 <= k < last ==> init[k] == patterns[k];
      assert forall a :: 0 <= a < |r| ==> r[a] < last by {
        forall a | 0 <= a < |r| ensures r[a] < last {
          assert r[a] in r;
        }
      }
      if isMatch(patterns[last], text) then r + [last] else r
  }

  /** What the worker does with one screenshot. */
  datatype Route = ToDelete | ToCrop

  /** A screenshot is deleted when no pattern matches its text and cropped
      otherwise. */
  function Decide(patterns: seq<string>, text: string, isMatch: (string, string) -> bool): (r: Route)
    ensures r == ToDelete <==> !AnyMatch(patterns, text, isMatch)
  {
    var matches := MatchIndices(patterns, text, isMatch);
    if |matches| == 0 then ToDelete
    else
      assert matches[0] in matches;
      ToCrop
  }

  // ---------------------------------------------------------------------
  // crop_image_and_store: target path and rectangle

  /** A pixel rectangle: top-left corner, width and height. */
  datatype Rect = Rect(x: nat, y: nat, width: nat, height: nat)

  /** The region cut out of every matched screenshot. */
  const CropRect: Rect := Rect(50, 480, 1000, 1000)

  const CroppedDir: Path := "./output/cropped"

  /** The components of a Unix path after the root, with empty and "."
      pieces dropped. `Path::components` keeps a leading "." as a current
      directory component; that makes no difference to the file name, since
      such a component is the last one only in "." itself, which has no file
      name either way. */
  function Components(p: Path): seq<string> {
    Without(Split(p, '/'), {"", "."})
  }

  /** Path::file_name: the last component, unless the path has none or ends
      in "..". */
  function FileName(p: Path): (r: Option<string>)
    ensures r.Some? ==> '/' !in r.value && r.value !in {"", ".", ".."}
  {
    var parts := Components(p);
    if |parts| == 0 || parts[|parts| - 1] == ".." then None
    else Some(parts[|parts| - 1])
  }

  /** PathBuf::push: an absolute component replaces the path, a relative one
      is appended after a separator when the path does not already end in
      one. */
  function Push(base: Path, component: string): Path {
    if |component| > 0 && component[0] == '/' then component
    else if |base| == 0 || base[|base| - 1] == '/' then base + component
    else base + "/" + component
  }

  /** Where the cropped copy of `source` is saved: its file name in the
      cropped directory, or `<uuid>.png` there when it has no file name. */
  function CropTarget(source: Path, uuid: string): Path {
    match FileName(source)
    case Some(name) => Push(CroppedDir, name)
    case None => Push(CroppedDir, uuid + ".png")
  }

  /** The file name of `dir/name` is `name`, whatever the directory. */
  lemma FileNameAfterDir(dir: Path, name: string)
    requires '/' !in name && name !in {"", ".", ".."}
    ensures FileName(dir + "/" + name) == Some(name)
  {
    assert dir + "/" + name == dir + ['/'] + name;
    SplitConcat(dir, name, '/');
    SplitWithoutSep(name, '/');
    WithoutConcat(Split(dir, '/'), [name], {"", "."});
  }

  /** Pushing a file name onto the cropped directory inserts one separator. */
  lemma PushOntoCroppedDir(name: string)
    requires name == [] || name[0] != '/'
    ensures Push(CroppedDir, name) == CroppedDir + "/" + name
  {
  }

  /** The crop target keeps the source's file name when it has one and
      otherwise names the file after the UUID; either way it lies in the
      cropped directory. */
  lemma CropTargetName(source: Path, uuid: string)
    requires '/' !in uuid
    ensures FileName(source).Some? ==>
              && CropTarget(source, uuid) == CroppedDir + "/" + FileName(source).value
              && FileName(CropTarget(source, uuid)) == FileName(source)
    ensures FileName(source).None? ==>
              && CropTarget(source, uuid) == CroppedDir + "/" + uuid + ".png"
              && FileName(CropTarget(source, uuid)) == Some(uuid + ".png")
  {
    match FileName(source)
    case Some(name) =>
      assert name[0] in name;
      PushOntoCroppedDir(name);
      FileNameAfterDir(CroppedDir, name);
    case None =>
      var name := uuid + ".png";
      assert name[|name| - 1] == 'g';
      assert '/' !in name;
      assert name[0] in name;
      PushOntoCroppedDir(name);
      FileNameAfterDir(CroppedDir, name);
  }

  /** Screenshots with the same file name are cropped to the same target, so
      a later one overwrites an earlier one. */
  lemma SameFileNameSameTarget(a: Path, b: Path, uuidA: string, uuidB: string)
    requires FileName(a).Some? && FileName(a) == FileName(b)
    ensures CropTarget(a, uuidA) == CropTarget(b, uuidB)
  {
  }

  /** A screenshot pulled from the device as `./output/sources/<id>.png` is
      cropped to `./output/cropped/<id>.png`. */
  lemma CropTargetOfPulledImage(id: string, uuid: string)
    requires '/' !in id
    ensures CropTarget(Device.SourcePath(id), uuid) == CroppedDir + "/" + id + ".png"
  {
    var name := id + ".png";
    assert name[|name| - 1] == 'g';
    assert '/' !in name;
    assert name[0] in name;
    assert Device.SourcePath(id) == "./output/sources" + "/" + name;
    FileNameAfterDir("./output/sources", name);
    PushOntoCroppedDir(name);
  }

  // ---------------------------------------------------------------------
  // start_process_image_loop

  /** The collaborators of the worker, all outside this model: `extract` is
      process_image, `isMatch` says whether a pattern matches a text,
      `remove` deletes a file, `crop` opens an image and saves the given
      rectangle of it to a target path, `uuid` is the fresh identifier drawn
      while handling the n-th received path. */
  datatype Env<!E> = Env(
    extract: (E, Path) -> Result<string, string>,
    isMatch: (string, string) -> bool,
    remove: Path -> Outcome<string>,
    crop: (Path, Path, Rect) -> Outcome<string>,
    uuid: nat -> string)

  /** An action the worker completed on a received screenshot. */
  datatype Action = Delete(source: Path) | Crop(source: Path, target: Path, rect: Rect)

  /** Why the worker stopped: the channel closed after every path was handled
      (the thread returns Ok), a delete failed (the thread returns Err with the
      error text), or extraction or cropping failed (the thread panics). */
  datatype Halt =
    | Drained
    | RemoveFailed(at: Path, reason: string)
    | ExtractPanicked(at: Path, reason: string)
    | CropPanicked(at: Path, reason: string)

  /** The value the worker thread ends with: None for a panic. */
  function ThreadResult(h: Halt): (r: Option<Result<(), string>>)
    ensures r == Some(Success(())) <==> h.Drained?
    ensures r.Some? && r.value.Failure? <==> h.RemoveFailed?
    ensures h.RemoveFailed? ==> r == Some(Failure(h.reason))
  {
    match h
    case Drained => Some(Success(()))
    case RemoveFailed(_, reason) => Some(Failure(reason))
    case ExtractPanicked(_, _) => None
    case CropPanicked(_, _) => None
  }

  /** Handling one received path either completes an action or stops the
      worker. */
  datatype Step = Done(action: Action) | Stopped(halt: Halt)

  /** One iteration of the worker loop on the n-th received path: what
      happened to the screenshot, or why the worker stopped there. */
  function Handle<E>(o: Ocr<E>, env: Env<E>, path: Path, n: nat): (s: Step)
    ensures s.Done? ==> s.action.source == path
    ensures s.Done? ==> env.extract(o.engine, path).Success?
    ensures s.Done? ==>
              (s.action.Delete? <==> !AnyMatch(o.patterns, env.extract(o.engine, path).value, env.isMatch))
    ensures s.Done? && s.action.Crop? ==>
              s.action.rect == CropRect && s.action.target == CropTarget(path, env.uuid(n))
    ensures s.Done? && s.action.Delete? ==> env.remove(path) == Pass
    ensures s.Done? && s.action.Crop? ==> env.crop(path, s.action.target, CropRect) == Pass
    ensures s.Stopped? ==> !s.halt.Drained? && s.halt.at == path
    ensures s.Stopped? && s.halt.ExtractPanicked? ==> env.extract(o.engine, path).Failure?
    ensures env.extract(o.engine, path).Failure? ==>
              s == Stopped(ExtractPanicked(path, env.extract(o.engine, path).error))
    ensures s.Stopped? && s.halt.RemoveFailed? ==>
              && env.extract(o.engine, path).Success?
              && !AnyMatch(o.patterns, env.extract(o.engine, path).value, env.isMatch)
              && env.remove(path) == Fail(s.halt.reason)
    ensures s.Stopped? && s.halt.CropPanicked? ==>
              && env.extract(o.engine, path).Success?
              && AnyMatch(o.patterns, env.extract(o.engine, path).value, env.isMatch)
              && env.crop(path, CropTarget(path, env.uuid(n)), CropRect) == Fail(s.halt.reason)
  {
    match env.extract(o.engine, path)
    case Failure(e) => Stopped(ExtractPanicked(path, e))
    case Success(text) =>
      match Decide(o.patterns, text, env.isMatch)
      case ToDelete =>
        (match env.remove(path)
         case Fail(e) => Stopped(RemoveFailed(path, e))
         case Pass => Done(Delete(path)))
      case ToCrop =>
        var target := CropTarget(path, env.uuid(n));
        match env.crop(path, target, CropRect)
        case Fail(e) => Stopped(CropPanicked(path, e))
        case Pass => Done(Crop(path, target, CropRect))
  }

  /** The actions completed and the reason the worker stopped. */
  datatype Run = Run(actions: seq<Action>, halt: Halt)

  /** A loop body: what handling the n-th received path gives. */
  type Body = (Path, nat) -> Step

  /** The worker's loop body, `Handle` with one OCR handle and environment. */
  function Worker<E>(o: Ocr<E>, env: Env<E>): Body {
    (path: Path, n: nat) => Handle(o, env, path, n)
  }

  /** Only the loop itself ends with the channel drained; a body stops it
      for some other reason. */
  ghost predicate NeverDrains(body: Body) {
    forall path, n :: body(path, n).Stopped? ==> !body(path, n).halt.Drained?
  }

  lemma WorkerNeverDrains<E>(o: Ocr<E>, env: Env<E>)
    ensures NeverDrains(Worker(o, env))
  {
  }

  /** What a completed iteration of the worker says about its path: the
      facts `Handle` promises for an action. */
  lemma WorkerDone<E>(o: Ocr<E>, env: Env<E>, path: Path, n: nat, a: Action)
    requires Worker(o, env)(path, n) == Done(a)
    ensures Handle(o, env, path, n) == Done(a)
    ensures a.source == path && env.extract(o.engine, path).Success?
    ensures a.Delete? <==> !AnyMatch(o.patterns, env.extract(o.engine, path).value, env.isMatch)
    ensures a.Delete? ==> env.remove(path) == Pass
    ensures a.Crop? ==> a.rect == CropRect && a.target == CropTarget(path, env.uuid(n))
    ensures a.Crop? ==> env.crop(path, a.target, CropRect) == Pass
  {
  }

  /** The k-th action of the whole run is what `Handle` completed on the
      k-th received path. */
  lemma RunAction<E>(o: Ocr<E>, env: Env<E>, received: seq<Path>, k: nat)
    requires k < |RunAll(o, env, received).actions|
    ensures Worker(o, env)(received[k], k) == Done(RunAll(o, env, received).actions[k])
  {
    var r := RunAll(o, env, received);
    WorkerNeverDrains(o, env);
    RunFromSteps(Worker(o, env), received, 0);
    assert Worker(o, env)(received[0 + k], 0 + k) == Done(r.actions[k]);
  }

  /** A run that does not drain the channel stops because `Handle` stopped
      on the first path without an action. */
  lemma RunStop<E>(o: Ocr<E>, env: Env<E>, received: seq<Path>)
    requires !RunAll(o, env, received).halt.Drained?
    ensures var r := RunAll(o, env, received);
      && |r.actions| < |received|
      && Worker(o, env)(received[|r.actions|], |r.actions|) == Stopped(r.halt)
  {
    var r := RunAll(o, env, received);
    WorkerNeverDrains(o, env);
    RunFromSteps(Worker(o, env), received, 0);
    assert Worker(o, env)(received[0 + |r.actions|], 0 + |r.actions|) == Stopped(r.halt);
  }

  /** An iteration of the worker that stopped is `Handle` stopping there. */
  lemma WorkerStopped<E>(o: Ocr<E>, env: Env<E>, path: Path, n: nat, h: Halt)
    requires Worker(o, env)(path, n) == Stopped(h)
    ensures Handle(o, env, path, n) == Stopped(h)
  {
  }

  /** The receive loop over the paths from index `i` on: run `body` on each
      in order until it stops or the channel runs dry. The run drains the
      channel exactly when it has one action for every path. */
  function RunFrom(body: Body, received: seq<Path>, i: nat): (r: Run)
    requires NeverDrains(body) && i <= |received|
    ensures |r.actions| <= |received| - i
    ensures r.halt.Drained? <==> |r.actions| == |received| - i
    decreases |received| - i
  {
    if i == |received| then Run([], Drained)
    else
      match body(received[i], i)
      case Stopped(h) => Run([], h)
      case Done(a) =>
        var rest := RunFrom(body, received, i + 1);
        Run([a] + rest.actions, rest.halt)
  }

  /** The k-th action of a run is what the body produced on the k-th path,
      and a run that stops does so because the body stopped on the next
      path. So there is exactly one action per handled path, in the order
      received, and nothing after the stopping path is touched. */
  lemma {:induction false} RunFromSteps(body: Body, received: seq<Path>, i: nat)
    requires NeverDrains(body) && i <= |received|
    ensures var r := RunFrom(body, received, i);
      forall k :: 0 <= k < |r.actions| ==> body(received[i + k], i + k) == Done(r.actions[k])
    ensures var r := RunFrom(body, received, i);
      !r.halt.Drained? ==>
        && i + |r.actions| < |received|
        && body(received[i + |r.actions|], i + |r.actions|) == Stopped(r.halt)
    decreases |received| - i
  {
    if i < |received| {
      var step := body(received[i], i);
      var r := RunFrom(body, received, i);
      if step.Done? {
        var rest := RunFrom(body, received, i + 1);
        RunFromSteps(body, received, i + 1);
        assert r.actions == [step.action] + rest.actions && r.halt == rest.halt;
        forall k | 0 <= k < |r.actions|
          ensures body(received[i + k], i + k) == Done(r.actions[k])
        {
          if k == 0 {
            assert i + k == i && r.actions[k] == step.action;
          } else {
            assert r.actions[k] == rest.actions[k - 1];
            assert (i + 1) + (k - 1) == i + k;
          }
        }
        assert i + |r.actions| == (i + 1) + |rest.actions|;
      } else {
        assert r == Run([], step.halt);
        assert i + |r.actions| == i;
      }
    }
  }

  /** The whole worker run on everything received before the channel
      closed. */
  function RunAll<E>(o: Ocr<E>, env: Env<E>, received: seq<Path>): Run {
    WorkerNeverDrains(o, env);
    RunFrom(Worker(o, env), received, 0)
  }

  /** The body of the worker loop as the source writes it: extract the text,
      collect the matching pattern indices, then delete or crop. */
  method ProcessOne<E>(o: Ocr<E>, env: Env<E>, path: Path, n: nat) returns (s: Step)
    ensures s == Handle(o, env, path, n)
  {
    var text;
    match env.extract(o.engine, path) {
      case Failure(e) =>
        return Stopped(ExtractPanicked(path, e));
      case Success(t) =>
        text := t;
    }
    var matches := MatchIndices(o.patterns, text, env.isMatch);
    if |matches| == 0 {
      match env.remove(path) {
        case Fail(e) => s := Stopped(RemoveFailed(path, e));
        case Pass => s := Done(Delete(path));
      }
    } else {
      var target := CropTarget(path, env.uuid(n));
      match env.crop(path, target, CropRect) {
        case Fail(e) => s := Stopped(CropPanicked(path, e));
        case Pass => s := Done(Crop(path, target, CropRect));
      }
    }
  }

  /** The worker loop: receive paths in order until the channel is drained or
      an iteration stops the worker. It computes the same run as `RunAll`. */
  method ProcessImageLoop<E>(o: Ocr<E>, env: Env<E>, received: seq<Path>)
    returns (actions: seq<Action>, halt: Halt)
    ensures Run(actions, halt) == RunAll(o, env, received)
    ensures halt.Drained? ==> |actions| == |received|
  {
    WorkerNeverDrains(o, env);
    actions := [];
    var i := 0;
    while i < |received|
      invariant 0 <= i <= |received| && |actions| == i
      invariant RunAll(o, env, received)
             == Run(actions + RunFrom(Worker(o, env), received, i).actions, RunFrom(Worker(o, env), received, i).halt)
    {
      var step := ProcessOne(o, env, received[i], i);
      assert step == Worker(o, env)(received[i], i);
      match step {
        case Stopped(h) =>
          halt := h;
          assert actions + [] == actions;
          return;
        case Done(a) =>
          var rest := RunFrom(Worker(o, env), received, i + 1);
          assert actions + ([a] + rest.actions) == (actions + [a]) + rest.actions;
          actions := actions + [a];
          i := i + 1;
      }
    }
    halt := Drained;
    assert actions + [] == actions;
  }

  // ---------------------------------------------------------------------
  // Properties of the worker run

  /** Every completed action follows the match rule: the screenshot was
      deleted exactly when no pattern matched its extracted text. */
  lemma RoutingByMatch<E>(o: Ocr<E>, env: Env<E>, received: seq<Path>)
    ensures var r := RunAll(o, env, received);
      forall k :: 0 <= k < |r.actions| ==>
        && env.extract(o.engine, received[k]).Success?
        && (r.actions[k].Delete? <==>
              !AnyMatch(o.patterns, env.extract(o.engine, received[k]).value, env.isMatch))
  {
    var r := RunAll(o, env, received);
    forall k | 0 <= k < |r.actions|
      ensures env.extract(o.engine, received[k]).Success?
      ensures r.actions[k].Delete? <==>
                !AnyMatch(o.patterns, env.extract(o.engine, received[k]).value, env.isMatch)
    {
      RunAction(o, env, received, k);
      WorkerDone(o, env, received[k], k, r.actions[k]);
    }
  }

  /** With no patterns nothing ever matches, so every completed action is a
      delete. */
  lemma EmptyPatternsDeleteAll<E>(o: Ocr<E>, env: Env<E>, received: seq<Path>)
    requires o.patterns == []
    ensures forall a :: a in RunAll(o, env, received).actions ==> a.Delete?
  {
    var r := RunAll(o, env, received);
    RoutingByMatch(o, env, received);
    forall a | a in r.actions ensures a.Delete? {
      var k :| 0 <= k < |r.actions| && r.actions[k] == a;
      assert !AnyMatch(o.patterns, env.extract(o.engine, received[k]).value, env.isMatch);
    }
  }

  /** Every crop cuts the fixed rectangle, whatever the image, its path or
      its text, and saves it to the target derived from the source path. */
  lemma CropsUseFixedRect<E>(o: Ocr<E>, env: Env<E>, received: seq<Path>)
    ensures var r := RunAll(o, env, received);
      forall k :: 0 <= k < |r.actions| && r.actions[k].Crop? ==>
        && r.actions[k].rect == CropRect
        && r.actions[k].target == CropTarget(received[k], env.uuid(k))
  {
    var r := RunAll(o, env, received);
    forall k | 0 <= k < |r.actions| && r.actions[k].Crop?
      ensures r.actions[k].rect == CropRect
      ensures r.actions[k].target == CropTarget(received[k], env.uuid(k))
    {
      RunAction(o, env, received, k);
      WorkerDone(o, env, received[k], k, r.actions[k]);
    }
  }

  /** Every completed action took effect: a screenshot reported deleted was
      removed, and one reported cropped had its rectangle saved to its
      target. */
  lemma ActionsTookEffect<E>(o: Ocr<E>, env: Env<E>, received: seq<Path>)
    ensures var r := RunAll(o, env, received);
      forall k :: 0 <= k < |r.actions| ==>
        && (r.actions[k].Delete? ==> env.remove(received[k]) == Pass)
        && (r.actions[k].Crop? ==> env.crop(received[k], r.actions[k].target, CropRect) == Pass)
  {
    var r := RunAll(o, env, received);
    forall k | 0 <= k < |r.actions|
      ensures r.actions[k].Delete? ==> env.remove(received[k]) == Pass
      ensures r.actions[k].Crop? ==> env.crop(received[k], r.actions[k].target, CropRect) == Pass
    {
      RunAction(o, env, received, k);
      WorkerDone(o, env, received[k], k, r.actions[k]);
    }
  }

  /** The paths acted on are exactly the received paths up to the stop, in
      order and one action each; when the channel runs dry every received
      path has its action. */
  lemma SourcesInOrder<E>(o: Ocr<E>, env: Env<E>, received: seq<Path>)
    ensures var r := RunAll(o, env, received);
      && |r.actions| <= |received|
      && (forall k :: 0 <= k < |r.actions| ==> r.actions[k].source == received[k])
      && (r.halt.Drained? ==> |r.actions| == |received|)
  {
    var r := RunAll(o, env, received);
    forall k | 0 <= k < |r.actions| ensures r.actions[k].source == received[k] {
      RunAction(o, env, received, k);
      WorkerDone(o, env, received[k], k, r.actions[k]);
    }
  }

  /** The worker drains the channel exactly when every received path can be
      handled; otherwise it stops at the first path that cannot, having
      handled every earlier one, and never looks at a later one. */
  lemma StopsAtFirstFailure<E>(o: Ocr<E>, env: Env<E>, received: seq<Path>)
    ensures var r := RunAll(o, env, received);
      && (r.halt.Drained? <==> forall k :: 0 <= k < |received| ==> Handle(o, env, received[k], k).Done?)
      && (!r.halt.Drained? ==>
            var j := |r.actions|;
            && j < |received|
            && (forall k :: 0 <= k < j ==> Handle(o, env, received[k], k).Done?)
            && Handle(o, env, received[j], j) == Stopped(r.halt))
  {
    var r := RunAll(o, env, received);
    var j := |r.actions|;
    forall k | 0 <= k < j ensures Handle(o, env, received[k], k).Done? {
      RunAction(o, env, received, k);
      WorkerDone(o, env, received[k], k, r.actions[k]);
    }
    if !r.halt.Drained? {
      RunStop(o, env, received);
      WorkerStopped(o, env, received[j], j, r.halt);
    }
  }

  /** What each way of stopping says about the path it stopped at: extraction
      failed; or nothing matched and the delete failed; or something matched
      and the crop failed. A run that ends in a panic has no thread result;
      one that ends in a failed delete returns that error. */
  lemma HaltCause<E>(o: Ocr<E>, env: Env<E>, received: seq<Path>)
    ensures var r := RunAll(o, env, received);
      !r.halt.Drained? ==>
        var j := |r.actions|;
        var p := received[j];
        var x := env.extract(o.engine, p);
        && (ThreadResult(r.halt).None? <==> r.halt.ExtractPanicked? || r.halt.CropPanicked?)
        && (r.halt.RemoveFailed? ==> ThreadResult(r.halt) == Some(Failure(r.halt.reason)))
        && (r.halt.ExtractPanicked? <==> x.Failure?)
        && (r.halt.ExtractPanicked? ==> r.halt.reason == x.error)
        && (r.halt.RemoveFailed? ==>
              && x.Success? && !AnyMatch(o.patterns, x.value, env.isMatch)
              && env.remove(p) == Fail(r.halt.reason))
        && (r.halt.CropPanicked? ==>
              && x.Success? && AnyMatch(o.patterns, x.value, env.isMatch)
              && env.crop(p, CropTarget(p, env.uuid(j)), CropRect) == Fail(r.halt.reason))
  {
    var r := RunAll(o, env, received);
    if !r.halt.Drained? {
      var j := |r.actions|;
      RunStop(o, env, received);
      WorkerStopped(o, env, received[j], j, r.halt);
    }
  }
}

=== FILE: text.dfy ===
/** Splitting a string on a one-character separator, as Rust's `str::split`
    does, its inverse `join`, and filtering out unwanted pieces. */
module Text {

  /** Every character of `s` is `c` (vacuously true of the empty string). */
  predicate OnlyChar(s: string, c: char) {
    forall i :: 0 <= i < |s| ==> s[i] == c
  }

  /** The pieces of `s` between occurrences of `sep`, in order. Like Rust's
      `split`, the empty string gives one empty piece and adjacent separators
      give empty pieces between them. */
  function Split(s: string, sep: char): (r: seq<string>)
    ensures |r| >= 1
    ensures forall i :: 0 <= i < |r| ==> sep !in r[i]
    decreases |s|
  {
    if |s| == 0 then [""]
    else
      var rest := Split(s[1..], sep);
      if s[0] == sep then [""] + rest
      else [[s[0]] + rest[0]] + rest[1..]
  }

  /** The pieces glued back together with `sep` between neighbours. */
  function Join(parts: seq<string>, sep: char): string
    decreases |parts|
  {
    if |parts| == 0 then ""
    else if |parts| == 1 then parts[0]
    else parts[0] + [sep] + Join(parts[1..], sep)
  }

  /** The pieces not in `dropped`, in their original order (an iterator
      `filter` followed by `collect`). */
  function Without(parts: seq<string>, dropped: set<string>): (r: seq<string>)
    ensures |r| <= |parts|
    ensures forall i :: 0 <= i < |r| ==> r[i] !in dropped && r[i] in parts
    ensures forall p :: p in parts && p !in dropped ==> p in r
    decreases |parts|
  {
    if |parts| == 0 then []
    else (if parts[0] in dropped then [] else [parts[0]]) + Without(parts[1..], dropped)
  }

  /** A string without the separator is a single piece. */
  lemma {:induction false} SplitWithoutSep(s: string, sep: char)
    requires sep !in s
    ensures Split(s, sep) == [s]
    decreases |s|
  {
    if |s| > 0 {
      assert sep !in s[1..] by {
        forall i | 0 <= i < |s[1..]| ensures s[1..][i] != sep {
          assert s[1..][i] == s[i + 1];
        }
      }
      SplitWithoutSep(s[1..], sep);
      assert [s[0]] + s[1..] == s;
    }
  }

  /** A separator between `a` and `b` splits them apart: the pieces of the
      whole are the pieces of `a` followed by the pieces of `b`. */
  lemma {:induction false} SplitConcat(a: string, b: string, sep: char)
    ensures Split(a + [sep] + b, sep) == Split(a, sep) + Split(b, sep)
    decreases |a|
  {
    var s := a + [sep] + b;
    if |a| == 0 {
      assert s == [sep] + b;
      assert s[1..] == b;
    } else {
      assert s[1..] == a[1..] + [sep] + b;
      SplitConcat(a[1..], b, sep);
    }
  }

  /** Joining the pieces restores the string. */
  lemma {:induction false} SplitJoin(s: string, sep: char)
    ensures Join(Split(s, sep), sep) == s
    decreases |s|
  {
    if |s| > 0 {
      var rest := Split(s[1..], sep);
      SplitJoin(s[1..], sep);
      if s[0] == sep {
        assert Split(s, sep) == [""] + rest;
        assert ([""] + rest)[1..] == rest;
        assert [s[0]] + s[1..] == s;
      } else {
        var r := Split(s, sep);
        assert r == [[s[0]] + rest[0]] + rest[1..];
        if |rest| == 1 {
          assert s == [s[0]] + s[1..];
        } else {
          assert r[1..] == rest[1..];
          assert Join(rest, sep) == rest[0] + [sep] + Join(rest[1..], sep);
          assert s == [s[0]] + s[1..];
        }
      }
    }
  }

  /** Splitting a join of separator-free pieces gives the pieces back. */
  lemma {:induction false} JoinSplit(parts: seq<string>, sep: char)
    requires |parts| >= 1
    requires forall i :: 0 <= i < |parts| ==> sep !in parts[i]
    ensures Split(Join(parts, sep), sep) == parts
    decreases |parts|
  {
    SplitWithoutSep(parts[0], sep);
    if |parts| > 1 {
      JoinSplit(parts[1..], sep);
      SplitConcat(parts[0], Join(parts[1..], sep), sep);
      assert parts == [parts[0]] + parts[1..];
    }
  }

  /** Filtering distributes over concatenation. */
  lemma {:induction false} WithoutConcat(a: seq<string>, b: seq<string>, dropped: set<string>)
    ensures Without(a + b, dropped) == Without(a, dropped) + Without(b, dropped)
    decreases |a|
  {
    if |a| > 0 {
      assert (a + b)[0] == a[0];
      assert (a + b)[1..] == a[1..] + b;
      WithoutConcat(a[1..], b, dropped);
      var head := if a[0] in dropped then [] else [a[0]];
      assert Without(a + b, dropped) == head + Without(a[1..] + b, dropped);
      assert Without(a, dropped) == head + Without(a[1..], dropped);
    } else {
      assert a + b == b;
    }
  }

  /** A string has no non-empty piece exactly when it consists of separators
      only. */
  lemma {:induction false} BlankIffOnlySeparators(s: string, sep: char)
    ensures Without(Split(s, sep), {""}) == [] <==> OnlyChar(s, sep)
    decreases |s|
  {
    if |s| > 0 {
      var rest := Split(s[1..], sep);
      BlankIffOnlySeparators(s[1..], sep);
      assert OnlyChar(s, sep) <==> s[0] == sep && OnlyChar(s[1..], sep) by {
        if s[0] == sep && OnlyChar(s[1..], sep) {
          forall i | 0 <= i < |s| ensures s[i] == sep {
            if i > 0 { assert s[i] == s[1..][i - 1]; }
          }
        }
        if OnlyChar(s, sep) {
          forall i | 0 <= i < |s[1..]| ensures s[1..][i] == sep {
            assert s[1..][i] == s[i + 1];
          }
        }
      }
      if s[0] == sep {
        var r := [""] + rest;
        assert r[0] == "" && r[1..] == rest;
      } else {
        var r := [[s[0]] + rest[0]] + rest[1..];
        assert r[0] != "" && r[0] !in {""};
        assert r[0] in Without(r, {""});
      }
    }
  }
}

=== FILE: wrappers.dfy ===
/** Failure-carrying datatypes standing in for Rust's Option, Result and the
    unit-valued Result<(), E> of I/O calls. */
module Wrappers {

  /** Rust's Option<T>. */
  datatype Option<+T> = None | Some(value: T)

  /** Rust's Result<T, E>: Ok becomes Success, Err becomes Failure. */
  datatype Result<+T, +E> = Success(value: T) | Failure(error: E)

  /** A Result<(), E>: an effect that either happened or failed with an error. */
  datatype Outcome<+E> = Pass | Fail(error: E)
}
